=== FILE: README.md ===
# CV digital twin: document loading and chat, modelled in Dafny

This repository has two near-identical tool servers. Each reads a PDF résumé
and answers questions about its owner by asking a chat-completion service:

- `main.py`: the **scan-all** server. It loads every PDF in `docs/`.
- `cv_digital_twin.py`: the **single-best** server. It loads one CV from `docs/`.

Both are modelled as two modes of one design (`Responder.Mode`). The model
covers the sequential core of the servers:

- the `.env` loader;
- PDF text extraction with library fallback;
- document discovery in `docs/`;
- the process-wide document cache and the operations that fill it;
- the `chat_with_me` step: the cache transitions, the 12,000-character
  truncation, the exact user turn, the lazy client, and how errors become
  result records.

Everything is a pure function over `string`s and small datatypes. The globals
`cv_content`, `cv_metadata` and `openai_client` become an explicit `State`.
The filesystem, the PDF libraries and the completion service are parameters:

- `Store` gives the set of existing paths, the `docs/` listing in enumeration
  order, and the two PDF libraries. Each library is an abstract function from
  a path to `Crashed` or a sequence of page texts.
- `Config` gives the server mode and the environment.
- The completion service is a function from `Request` to a result.

Each `chat_with_me` call maps to a `Turn`. A `Turn` holds the reply record,
the globals after the call, and the request sent to the service, if any. So
"the service is never reached" and "the prompt is exactly this" can be stated
directly.

Modules: `Outcomes` (Option, Result, exception values), `Text` (`str.strip`,
`str.join`, `os.path.basename`, string order, `sorted`), `DotEnv`,
`Extraction`, `Discovery`, `Loader`, `Responder`.

Points where the code does something other than its own comments or a
quick reading suggest; the model follows the code:

- The docstrings at main.py:188 and cv_digital_twin.py:159, and the
  comments at main.py:202 and cv_digital_twin.py:173, say a given `cv_path`
  is loaded only when no CV is loaded yet. The test at main.py:203 (and
  cv_digital_twin.py:174) is only `if cv_path:`, so a non-empty path is
  reloaded on every call, replacing whatever was cached
  (`Responder.Chat`, `Responder.SamePathTwice`).
- Blank page text does not make `extract_text_from_pdf` try the next
  library. If pdfplumber opens the file, its result is returned even when
  every page is blank (main.py:82-87, `Extraction.BlankPagesDoNotFallBack`).
  Only an exception moves on to PyPDF2.
- When no conventional name exists, the single-best server takes the first
  entry `docs_dir.glob("*.pdf")` yields. That is directory enumeration
  order, not name order (cv_digital_twin.py:131-133, `Discovery.FindCvName`).
- A failed explicit path is reported as `"Failed to load CV: " + str(e)`
  (main.py:204-210). For a missing file `str(e)` is
  `"CV file not found: <path>"`; otherwise it is the extraction error.

## Model

| member | source | states |
|---|---|---|
| Text.Strip | main.py:18 | `line.strip()`: the result follows the maximal run of leading whitespace in the input, everything after it is whitespace, and it neither starts nor ends with a whitespace character (Python's `str.isspace` set) |
| Text.StripIdempotent | main.py:18 | stripping an already stripped line changes nothing |
| Text.Join | main.py:88 | `sep.join(parts)`: equal to the independent right-to-left definition `JoinRight`, in which every part but the last is followed by exactly one separator |
| Text.JoinShape | main.py:88 | a join of at least one part has the parts' total length plus one separator between neighbours, starts with the first part and ends with the last |
| Text.Basename | main.py:139 | `os.path.basename`: the longest `/`-free suffix of the path, preceded by `/` when shorter than the path |
| Text.Sort | main.py:123 | `sorted(...)`: the result is in code-point lexicographic order and is a permutation of the input |
| Text.SortedUnique | main.py:123 | two sorted permutations of the same strings are equal, so the sorted order is the one Python produces |
| DotEnv.ParseLine | main.py:17-20 | a line assigns exactly when its stripped form is non-empty, does not start with `#` and holds `=`; then key + "=" + value is the stripped line and the key holds no `=` (split at the first `=`) |
| DotEnv.ValueKeepsLaterEquals | main.py:19-20 | `KEY=a=b` assigns `a=b` to `KEY`: a value may contain `=` |
| DotEnv.Load | main.py:15-21 | processing the file never removes an environment variable |
| DotEnv.LoadIfPresent | main.py:14-16 | without a `.env` file the environment is unchanged |
| DotEnv.LoadLookup | main.py:17-21 | looking a key up after loading gives the value of the last line assigning it, else the value it had before, else nothing |
| DotEnv.LoadLastWins | main.py:17-21 | after loading, a key is set iff it was set before or some line assigns it; its value is that of the last assigning line, else the old one |
| Extraction.OrEmpty | main.py:86-87 | pdfplumber pages keep their places, a `None` page becoming `""` |
| Extraction.Texts | main.py:98-99 | PyPDF2 pages are used as they are, defined only when every page gave text |
| Extraction.ExtractText | main.py:78-110 | succeeds iff pdfplumber is installed and reads the file, or PyPDF2 is installed and reads it with text on every page; pdfplumber's pages joined by a blank line win; otherwise PyPDF2's; failure is the `ImportError` "No PDF library available" message |
| Extraction.BlankPagesDoNotFallBack | main.py:82-89 | pdfplumber reading n blank pages gives n-1 blank-line separators and nothing else, without trying PyPDF2 |
| Extraction.FirstReaderWins | main.py:82-101 | once pdfplumber reads a file, PyPDF2's behaviour cannot change the result |
| Extraction.PyPdfNonePageFails | main.py:93-110 | a `None` page from PyPDF2 makes its join raise, so without pdfplumber the extraction fails with the library message |
| Discovery.PdfNames | main.py:123 | the `*.pdf` glob keeps every PDF entry and only those, in listing order |
| Discovery.PdfNamesKeepsCopies | main.py:123 | an entry listed several times is kept as many times when it is a PDF, and dropped otherwise |
| Discovery.FindAllPdfs | main.py:113-124 | no `docs/` gives `[]`; otherwise a sorted permutation of the paths of all PDF entries, empty iff there is none |
| Discovery.PathOrderIsNameOrder | main.py:123 | sorting full paths in one directory orders them by file name, as Python's `Path` ordering does |
| Discovery.FirstPresent | cv_digital_twin.py:125-128 | the first name of the priority list that exists; every earlier name is absent; `None` iff none exists |
| Discovery.FirstPdf | cv_digital_twin.py:131-133 | the first PDF entry in enumeration order; every earlier entry is not a PDF; `None` iff there is no PDF |
| Discovery.FindCvName | cv_digital_twin.py:113-135 | a found name is a PDF entry of an existing `docs/`; a present conventional name wins in list order; otherwise the first PDF in enumeration order; `None` iff no `docs/` or no PDF |
| Discovery.FindCv | cv_digital_twin.py:113-135 | `None` iff no `docs/` or no PDF; otherwise `docs/` joined with the first conventional name present, or, when none is, with the first PDF entry in enumeration order |
| Discovery.ConventionalNameWins | cv_digital_twin.py:123-128 | a `CV.pdf` in `docs/` is chosen over every other PDF, whatever the listing order |
| Discovery.RepeatedNameIsRedundant | cv_digital_twin.py:123 | the repeated fifth name `CV.pdf` never changes which name is found |
| Loader.LoadCv | main.py:127-142 | a missing path fails with "CV file not found: {path}"; it succeeds iff the path exists and extraction succeeds; failure leaves content and metadata untouched; success replaces the content with the extracted text and sets file path, base name and `content_length` = length of the new content |
| Loader.Extracted | main.py:159-167 | the files kept are in their original order, each with the text its extraction returned; a failing file is skipped and no successful file is dropped |
| Loader.ExtractedKeepsCopies | main.py:159-167 | a path that extracts is kept exactly as often as it is listed |
| Loader.NothingExtractsNothingLoaded | main.py:165-170 | when every file fails, nothing is kept |
| Loader.CollectParts | main.py:156-167 | the loop collects, for the files that extract, one headed part "\n\n--- Content from {basename} ---\n\n{content}" each and the same files' paths, in order |
| Loader.LoadAllPdfs | main.py:145-180 | no PDFs: `FileNotFoundError` "No PDF files found in docs/ directory"; every file failing: "Failed to load any PDF files from docs directory"; the cache changes only on success; then the text is the headed parts joined by "\n", and `file_paths`/`num_files` list exactly the successful files; `file_names`, `num_files` and `content_length` always match the new paths and text |
| Loader.HeadingNamesTheEntry | main.py:163 | the part for `docs/<name>` opens with the heading "\n\n--- Content from <name> ---\n\n" that names the file |
| Loader.MultiLoadStartsWithHeading | main.py:163-172 | a multi-file text starts with the heading of the first file loaded, a file listed in `docs/`, so it is never empty |
| Responder.Truncate | main.py:234-238 | text of up to 12,000 characters is passed as is; longer text becomes its first 12,000 characters followed by the truncation note |
| Responder.UserTurn | main.py:245 | the user turn starts with the header and the document text, ends with the label and the message, and is exactly as long as the four pieces |
| Responder.UserTurnRoundTrip | main.py:245 | the user turn "My CV/Resume:\n\n{cv}\n\n\nMessage: {message}" holds the document text and the message intact |
| Responder.ReadUserTurnSound | main.py:245 | anything that reads back as a user turn was built by the user-turn format |
| Responder.SystemPrompt | cv_digital_twin.py:204-207 | both system turns (this one and the casual one at main.py:231-232) open with the same persona; after it the scan-all prompt is exactly the casual-personality rule, and the single-best prompt exactly the rule to use only what the CV states followed by the leave to invent answers; so only the single-best prompt carries the grounding rule |
| Responder.ModelName | main.py:52 | the requested model is `OPENAI_MODEL` when set, else the fixed default |
| Responder.DotEnvChoosesModel | main.py:14-52 | the last `OPENAI_MODEL=` line of `.env` decides the requested model |
| Responder.GetClient | cv_digital_twin.py:56-75 | no library: the `ImportError` message; an existing client is reused without checking the key; otherwise a missing or empty `OPENAI_API_KEY` gives the `ValueError` message, and a new client carries the key |
| Responder.ClassifyError | cv_digital_twin.py:234-248 | `ImportError` and `ValueError` messages pass through unchanged; every other exception gets the "Error calling OpenAI API: " prefix |
| Responder.Respond | cv_digital_twin.py:200-248 | a request is sent iff a client is obtained, and it is the model, the mode's system prompt and the user turn of the truncated text; a success echoes the message, has the fixed source and reports the service's answer and model; every failure is an error record; the client is kept even when the call fails |
| Responder.DocsError | main.py:214-225 | a `FileNotFoundError` from the scan-all load is reported by its message alone; any other exception gets the "Failed to load PDFs from docs directory: " prefix before its message |
| Responder.AfterExplicit | main.py:212-225 | a loaded cache is answered from as it is; otherwise the scan-all server loads every PDF and the single-best server the one it finds, each error giving its fixed message with the state unchanged, and each success answering from the newly loaded document |
| Responder.Chat | main.py:185-273 | a non-empty `cv_path` always reloads; if that load fails the result is "Failed to load CV: ..." with nothing else tried and the state unchanged, and if it succeeds the answer comes from the new document; without a path a loaded cache is answered from as it is, and an unloaded one from what auto-discovery loads; requests are built from the cached text; successes echo the message; the cache is never unloaded and its metadata stays consistent; a created client is kept |
| Responder.EmptyPathIsIgnored | main.py:203 | `if cv_path:` is a truthiness test, so an empty path behaves exactly like no path |
| Responder.ScanAllNothingFound | main.py:212-220 | scan-all server, unloaded, no PDF or no `docs/`: the error is "No PDF files found in docs/ directory", the cache stays unloaded, and nothing is sent |
| Responder.ScanAllEveryFileFails | main.py:221-225 | scan-all server, unloaded, every PDF failing: the error is "Failed to load PDFs from docs directory: Failed to load any PDF files from docs directory", the cache stays unloaded, and nothing is sent |
| Responder.SingleBestNothingFound | cv_digital_twin.py:184-198 | single-best server, unloaded, nothing found: the fixed "No CV loaded..." error, and nothing is sent |
| Responder.SingleBestFoundButFails | cv_digital_twin.py:184-193 | single-best server: a found CV that fails to load gives "Found CV at {path} but failed to load: ...", the cache stays unloaded, and nothing is sent |
| Responder.MissingKeyNeverCalls | cv_digital_twin.py:66-72 | with no client yet and no key nothing is sent and no client is made; with a loaded document the reply is the credential error |
| Responder.NoLibraryNeverCalls | cv_digital_twin.py:60-64 | without the OpenAI library nothing is sent; with a loaded document the reply is the library error |
| Responder.UnsentMeansServiceIrrelevant | main.py:227-273 | when no request is sent the result does not depend on the service |
| Responder.AnswersWhenAllWorks | main.py:203-257 | a path that loads, the library, a key and an answering service give a success echoing the message |
| Responder.SamePathTwice | main.py:203-210 | with the filesystem unchanged between the calls, two calls with the same explicit path reload twice, end with the same cache, and the second resends the first's request |

## Left out

- Real PDF parsing (pdfplumber, PyPDF2) is left out: each library is an abstract per-path outcome, either `Crashed` or page texts. Opening errors and errors on any page both count as `Crashed`.
- The chat-completion call is an oracle from `Request` to a result. Temperature 1.0 is fixed in the source and has no checkable effect, so it is not modelled.
- `response.choices[0].message.content` being `None` (a JSON `null`) is not modelled: the answer is a string.
- Constructing `OpenAI(api_key=...)` is assumed never to raise. What happens inside the client library is not modelled.
- JSON serialisation with `indent=2` is left out: results are the `Reply` record, not a formatted string.
- Filesystem queries are inputs: the set of existing paths and the `docs/` listing. `Discovery.FindCvName` tests a conventional name by membership in the listing, where cv_digital_twin.py:127 calls `cv_path.exists()`. The two differ on a case-insensitive filesystem (`cv.pdf` listed, `CV.pdf` asked for) and for a broken symbolic link (listed, but `exists()` is false); neither case is modelled. A path in `docs/` is `dir + "/" + name`.
- Paths are POSIX paths. `Text.Basename` splits only on `/`, so a Windows `\` separator is not modelled, and `Discovery.IsPdfName` matches `*.pdf` case-sensitively, as the glob does on POSIX; on Windows it would also match `.PDF`.
- The `.env` file is given as its lines, already split. Reading it, universal-newline splitting and I/O errors are left out.
- `os.environ[key] = value` may reject some names (an empty key, an embedded NUL). That check is not modelled: every parsed key is stored.
- `print` logging is left out: the model assumes printing never raises. It can, for example on an unencodable path or a closed standard output, and the effect depends on where the `print` is:
  - main.py:134 and cv_digital_twin.py:145, in `load_cv`: an explicit path reports "Failed to load CV: ...". On the single-best server's auto-discovery the message is "Found CV at ... but failed to load: ...".
  - main.py:154, before the loop: the whole multi-file load fails. The call reports "Failed to load PDFs from docs directory: ..." and the cache stays unloaded.
  - main.py:161, inside the loop: the handler at main.py:166 prints the same path to the same stream. It raises again, so the whole load fails the same way instead of skipping the file.
  - main.py:182: the cache has already been replaced. The call reports the same docs error while the new content stays loaded.
- Strings are sequences of Unicode scalar values, which is what a Dafny `char` is. Python strings can also hold lone surrogates, which `os.scandir` and `glob` produce for file names that are invalid in the filesystem encoding (`surrogateescape`). Such `docs/` entries cannot be represented, so `Discovery.IsPdfName`, `Text.Sort`, `Text.Basename`, `Discovery.FindAllPdfs` and `Discovery.FindCvName` say nothing about them.
- FastMCP tool registration and the `__main__` CLI blocks do not affect tool results, so they are left out.
- test_server.py is a manual harness that asserts nothing. Its `.env` loop is the same as main.py's, which is modelled.
- Concurrency is left out: the globals are unsynchronised, and calls are modelled one after another.

=== FILE: discovery.dfy ===
/**
 Finding documents in the `docs/` directory next to the server script. The
 scan-all server lists every PDF in sorted order; the single-best server
 takes the first conventional CV name that exists, else the first PDF the
 directory listing yields.
 */
module Discovery {
  import opened Outcomes
  import opened Text

  /** The `docs/` directory: its path, whether it exists, and its entries'
      names in the order the operating system enumerates them. */
  datatype Docs = Docs(dir: string, present: bool, entries: seq<string>)

  /** `str(docs_dir / name)`. */
  function PathIn(dir: string, name: string): string {
    dir + "/" + name
  }

  /** The names the glob `*.pdf` matches (case-sensitive; a leading dot is
      matched like any other character). */
  predicate IsPdfName(name: string) {
    EndsWith(name, ".pdf")
  }

  /** The PDF entries, in listing order. */
  function PdfNames(entries: seq<string>): (r: seq<string>)
    ensures IsSubsequence(r, entries)
    ensures forall i | 0 <= i < |r| :: IsPdfName(r[i])
    ensures forall n | n in entries && IsPdfName(n) :: n in r
    ensures multiset(r) <= multiset(entries)
  {
    if |entries| == 0 then []
    else if IsPdfName(entries[0]) then
      assert entries == [entries[0]] + entries[1..];
      [entries[0]] + PdfNames(entries[1..])
    else
      assert entries == [entries[0]] + entries[1..];
      PdfNames(entries[1..])
  }

  /** A PDF entry listed several times is kept as often as it is listed;
      other entries are dropped. */
  lemma {:induction false} PdfNamesKeepsCopies(entries: seq<string>, n: string)
    ensures multiset(PdfNames(entries))[n] == if IsPdfName(n) then multiset(entries)[n] else 0
    decreases |entries|
  {
    if |entries| > 0 {
      PdfNamesKeepsCopies(entries[1..], n);
      MultisetHead(entries, n);
      if IsPdfName(entries[0]) {
        MultisetHead(PdfNames(entries), n);
      }
    }
  }

  /** The full paths of the given names. */
  function PathsIn(dir: string, names: seq<string>): (r: seq<string>)
    ensures |r| == |names|
    ensures forall i | 0 <= i < |r| :: r[i] == PathIn(dir, names[i])
  {
    if |names| == 0 then [] else [PathIn(dir, names[0])] + PathsIn(dir, names[1..])
  }

  /** `find_all_pdfs_in_docs()` of the scan-all server: no directory gives
      the empty list; otherwise the paths of all PDF entries, sorted. */
  function FindAllPdfs(d: Docs): (r: seq<string>)
    ensures !d.present ==> r == []
    ensures d.present ==> multiset(r) == multiset(PathsIn(d.dir, PdfNames(d.entries)))
    ensures Sorted(r)
    ensures |r| == 0 <==> !d.present || forall n | n in d.entries :: !IsPdfName(n)
  {
    if !d.present then []
    else
      var names := PdfNames(d.entries);
      var r := Sort(PathsIn(d.dir, names));
      assert |r| == |multiset(r)| == |names|;
      assert |r| == 0 ==> forall n | n in d.entries :: !IsPdfName(n);
      assert (forall n | n in d.entries :: !IsPdfName(n)) ==> |names| == 0 by {
        if |names| > 0 {
          assert names[0] in multiset(d.entries);
        }
      }
      r
  }

  /** Sorting the full paths orders them as Python orders `Path` objects of
      one directory: by file name. */
  lemma PathOrderIsNameOrder(dir: string, a: string, b: string)
    ensures LexLe(PathIn(dir, a), PathIn(dir, b)) <==> LexLe(a, b)
  {
    assert PathIn(dir, a) == (dir + "/") + a;
    assert PathIn(dir, b) == (dir + "/") + b;
    LexLeCommonPrefix(dir + "/", a, b);
  }

  /** The conventional names, as `find_cv_in_docs` lists them
      (cv_digital_twin.py:123); `CV.pdf` appears twice. */
  const ConventionalNames: seq<string> := ["CV.pdf", "cv.pdf", "resume.pdf", "Resume.pdf", "CV.pdf"]

  /** The first of `names` that is an entry of the directory. */
  function FirstPresent(names: seq<string>, entries: seq<string>): (r: Option<nat>)
    ensures r.Some? ==> r.value < |names| && names[r.value] in entries
    ensures r.Some? ==> forall j | 0 <= j < r.value :: names[j] !in entries
    ensures r.None? ==> forall j | 0 <= j < |names| :: names[j] !in entries
  {
    if |names| == 0 then None
    else if names[0] in entries then Some(0)
    else
      match FirstPresent(names[1..], entries)
      case None => None
      case Some(i) => Some(i + 1)
  }

  /** The first PDF entry in listing order (`list(docs_dir.glob("*.pdf"))[0]`). */
  function FirstPdf(entries: seq<string>): (r: Option<nat>)
    ensures r.Some? ==> r.value < |entries| && IsPdfName(entries[r.value])
    ensures r.Some? ==> forall j | 0 <= j < r.value :: !IsPdfName(entries[j])
    ensures r.None? ==> forall j | 0 <= j < |entries| :: !IsPdfName(entries[j])
  {
    if |entries| == 0 then None
    else if IsPdfName(entries[0]) then Some(0)
    else
      match FirstPdf(entries[1..])
      case None => None
      case Some(i) => Some(i + 1)
  }

  /** The file name `find_cv_in_docs()` settles on, if any. */
  function FindCvName(d: Docs): (r: Option<string>)
    ensures r.Some? ==> d.present && r.value in d.entries && IsPdfName(r.value)
    ensures r.None? <==> !d.present || forall n | n in d.entries :: !IsPdfName(n)
    ensures d.present && FirstPresent(ConventionalNames, d.entries).Some? ==>
              r == Some(ConventionalNames[FirstPresent(ConventionalNames, d.entries).value])
    ensures d.present && FirstPresent(ConventionalNames, d.entries).None? && r.Some? ==>
              exists i | 0 <= i < |d.entries| :: r.value == d.entries[i] && forall j | 0 <= j < i :: !IsPdfName(d.entries[j])
    ensures d.present && FirstPresent(ConventionalNames, d.entries).None? && FirstPdf(d.entries).Some? ==>
              r == Some(d.entries[FirstPdf(d.entries).value])
  {
    if !d.present then None
    else
      match FirstPresent(ConventionalNames, d.entries)
      case Some(i) =>
        assert forall j | 0 <= j < |ConventionalNames| :: IsPdfName(ConventionalNames[j]);
        Some(ConventionalNames[i])
      case None =>
        match FirstPdf(d.entries)
        case Some(i) => Some(d.entries[i])
        case None => None
  }

  /** `find_cv_in_docs()` of the single-best server: the path of the chosen
      name, `None` when the directory is missing or holds no PDF. */
  function FindCv(d: Docs): (r: Option<string>)
    ensures r.None? <==> !d.present || forall n | n in d.entries :: !IsPdfName(n)
    ensures r.Some? ==> exists n | n in d.entries && IsPdfName(n) :: r.value == PathIn(d.dir, n)
    // which PDF: the first conventional name present, else the first PDF listed
    ensures d.present && FirstPresent(ConventionalNames, d.entries).Some? ==>
              r == Some(PathIn(d.dir, ConventionalNames[FirstPresent(ConventionalNames, d.entries).value]))
    ensures d.present && FirstPresent(ConventionalNames, d.entries).None? && FirstPdf(d.entries).Some? ==>
              r == Some(PathIn(d.dir, d.entries[FirstPdf(d.entries).value]))
  {
    match FindCvName(d)
    case Some(n) => Some(PathIn(d.dir, n))
    case None => None
  }

  /** A conventional name wins over every other PDF, whatever the listing
      order, and `CV.pdf` beats the other three. */
  lemma ConventionalNameWins(d: Docs)
    requires d.present && "CV.pdf" in d.entries
    ensures FindCv(d) == Some(PathIn(d.dir, "CV.pdf"))
  {
  }

  /** The repeated fifth name never decides anything: the search over the
      first four names finds the same file. */
  lemma RepeatedNameIsRedundant(entries: seq<string>)
    ensures FirstPresent(ConventionalNames, entries).Some? <==> FirstPresent(ConventionalNames[..4], entries).Some?
    ensures FirstPresent(ConventionalNames, entries).Some? ==>
              ConventionalNames[FirstPresent(ConventionalNames, entries).value]
              == ConventionalNames[..4][FirstPresent(ConventionalNames[..4], entries).value]
  {
    var full := FirstPresent(ConventionalNames, entries);
    var four := FirstPresent(ConventionalNames[..4], entries);
    assert ConventionalNames[4] == ConventionalNames[0];
    if full.Some? {
      assert full.value < 4;
      assert four.Some?;
    }
  }
}

=== FILE: dotenv.dfy ===
/**
 The `.env` loader both servers run at import time: every line of the file
 is stripped, blank lines, `#` comments and lines without `=` are skipped,
 and any other line sets the environment variable named by the text before
 its first `=` to the text after it.
 */
module DotEnv {
  import opened Outcomes
  import opened Text

  /** The assignment one raw `.env` line makes, if any: `line.strip()`,
      then `line.split("=", 1)` when the stripped line is non-empty, does not
      start with `#` and holds an `=`. */
  function ParseLine(raw: string): (r: Option<(string, string)>)
    ensures r.Some? <==> var line := Strip(raw); line != [] && line[0] != '#' && '=' in line
    ensures r.Some? ==> Strip(raw) == r.value.0 + "=" + r.value.1
    ensures r.Some? ==> '=' !in r.value.0
  {
    var line := Strip(raw);
    if line != [] && line[0] != '#' && '=' in line then
      var i := IndexOf(line, '=');
      assert line == line[..i] + "=" + line[i + 1..];
      Some((line[..i], line[i + 1..]))
    else
      None
  }

  /** A line without surrounding whitespace is left as it is by `strip()`. */
  lemma StripUnchanged(s: string)
    requires s == [] || (!IsSpace(s[0]) && !IsSpace(s[|s| - 1]))
    ensures Strip(s) == s
  {
    if s != [] {
      assert LeadingSpace(s) == 0 by {
        assert !AllSpace(s[..1]);
      }
      forall k | 0 <= k < |s|
        ensures !AllSpace(s[k..])
      {
        assert s[k..][|s| - k - 1] == s[|s| - 1];
      }
    }
  }

  /** The environment after one line of the file. */
  function ApplyLine(env: map<string, string>, raw: string): map<string, string> {
    match ParseLine(raw)
    case Some((key, value)) => env[key := value]
    case None => env
  }

  /** The environment after the loop over the file's lines, in file order.
      Variables are only ever added or overwritten, never removed. */
  function Load(env: map<string, string>, lines: seq<string>): (r: map<string, string>)
    ensures env.Keys <= r.Keys
    decreases |lines|
  {
    if |lines| == 0 then env else Load(ApplyLine(env, lines[0]), lines[1..])
  }

  /** The `.env` file is read only when it exists. */
  function LoadIfPresent(env: map<string, string>, file: Option<seq<string>>): (r: map<string, string>)
    ensures file.None? ==> r == env
    ensures env.Keys <= r.Keys
  {
    match file
    case None => env
    case Some(lines) => Load(env, lines)
  }

  /** The value one line gives `key`, if it assigns `key` at all. */
  function LineValue(raw: string, key: string): Option<string> {
    match ParseLine(raw)
    case Some((k, v)) => if k == key then Some(v) else None
    case None => None
  }

  /** Reference reading of the file: the value of the LAST line assigning
      `key`, found by scanning from the end. */
  function LastValue(lines: seq<string>, key: string): Option<string>
    decreases |lines|
  {
    if |lines| == 0 then None
    else if LineValue(lines[|lines| - 1], key).Some? then LineValue(lines[|lines| - 1], key)
    else LastValue(lines[..|lines| - 1], key)
  }

  /** `os.environ.get(key)`. */
  function Lookup(env: map<string, string>, key: string): Option<string> {
    if key in env then Some(env[key]) else None
  }

  /** One line sets `key` to the value it gives it, and leaves `key` alone
      when it assigns some other key or nothing. */
  lemma ApplyLineAt(env: map<string, string>, raw: string, key: string)
    ensures Lookup(ApplyLine(env, raw), key) ==
              if LineValue(raw, key).Some? then LineValue(raw, key) else Lookup(env, key)
  {
  }

  /** Reading from the end, a first line matters only when no later line
      assigns the key. */
  lemma {:induction false} LastValueCons(lines: seq<string>, key: string)
    requires |lines| > 0
    ensures LastValue(lines, key) ==
              if LastValue(lines[1..], key).Some? then LastValue(lines[1..], key) else LineValue(lines[0], key)
    decreases |lines|
  {
    var n := |lines|;
    if n > 1 {
      InitTail(lines);
      LastValueCons(lines[..n - 1], key);
    } else {
      assert lines[..0] == [];
    }
  }

  /** After loading, `key` has the value of the last line assigning it, or
      else the value it had before (or none). */
  lemma {:induction false} LoadLookup(env: map<string, string>, lines: seq<string>, key: string)
    ensures Lookup(Load(env, lines), key) ==
              if LastValue(lines, key).Some? then LastValue(lines, key) else Lookup(env, key)
    decreases |lines|
  {
    if |lines| > 0 {
      var next := ApplyLine(env, lines[0]);
      LoadLookup(next, lines[1..], key);
      ApplyLineAt(env, lines[0], key);
      LastValueCons(lines, key);
    }
  }

  /** A later line for the same key overwrites an earlier one, and a key the
      file never assigns keeps the value it had in the environment. */
  lemma LoadLastWins(env: map<string, string>, lines: seq<string>, key: string)
    ensures key in Load(env, lines) <==> key in env || LastValue(lines, key).Some?
    ensures LastValue(lines, key).Some? ==> Load(env, lines)[key] == LastValue(lines, key).value
    ensures LastValue(lines, key).None? && key in env ==> Load(env, lines)[key] == env[key]
  {
    LoadLookup(env, lines, key);
  }

  /** A value may itself contain `=`: only the first `=` splits. */
  lemma ValueKeepsLaterEquals(key: string, value: string)
    requires key != [] && key[0] != '#' && '=' !in key
    requires !IsSpace(key[0])
    requires value == [] || !IsSpace(value[|value| - 1])
    ensures ParseLine(key + "=" + value) == Some((key, value))
  {
    var line := key + "=" + value;
    assert line[0] == key[0];
    assert line[|line| - 1] == if value == [] then '=' else value[|value| - 1];
    StripUnchanged(line);
    FirstEqualsAfterKey(key, value);
  }

  /** In `key=value` with no `=` in `key`, the first `=` is the one after
      the key. */
  lemma FirstEqualsAfterKey(key: string, value: string)
    requires '=' !in key
    ensures var line := key + "=" + value;
            && IndexOf(line, '=') == |key|
            && line[..|key|] == key
            && line[|key| + 1..] == value
  {
    var line := key + "=" + value;
    assert forall j | 0 <= j < |key| :: line[j] == key[j];
    assert line[|key|] == '=';
  }
}

=== FILE: extraction.dfy ===
/**
 Text extraction from one PDF with two optional libraries tried in a fixed
 order: the layout-aware pdfplumber first, PyPDF2 second. The libraries are
 abstract: for a given path each either raises or yields, page by page, the
 value of `page.extract_text()`.
 */
module Extraction {
  import opened Outcomes
  import opened Text

  /** What one library did with one file: it raised (on opening or on some
      page), or it read every page, `None` standing for a page whose
      `extract_text()` returned `None`. */
  datatype Attempt = Crashed | Read(pages: seq<Option<string>>)

  /** Which libraries imported (`HAS_PDFPLUMBER`, `HAS_PYPDF2`) and what each
      does with a path. */
  datatype Backends = Backends(
    hasPlumber: bool, plumber: string -> Attempt,
    hasPyPdf: bool, pypdf: string -> Attempt)

  const PageSeparator: string := "\n\n"

  const NoPdfLibraryMessage: string :=
    "No PDF library available. Please install pdfplumber or PyPDF2:\n  pip install pdfplumber\n  or\n  pip install PyPDF2"

  /** pdfplumber's `page.extract_text() or ""`: a page without text counts
      as the empty string and keeps its place. */
  function OrEmpty(pages: seq<Option<string>>): (r: seq<string>)
    ensures |r| == |pages|
    ensures forall i | 0 <= i < |r| :: pages[i].Some? ==> r[i] == pages[i].value
    ensures forall i | 0 <= i < |r| :: pages[i].None? ==> r[i] == ""
  {
    if |pages| == 0 then []
    else [if pages[0].Some? then pages[0].value else ""] + OrEmpty(pages[1..])
  }

  predicate AllText(pages: seq<Option<string>>) {
    forall i | 0 <= i < |pages| :: pages[i].Some?
  }

  /** PyPDF2's pages, which it appends without a guard: defined only when no
      page gave `None` (otherwise the join raises `TypeError`). */
  function Texts(pages: seq<Option<string>>): (r: seq<string>)
    requires AllText(pages)
    ensures |r| == |pages|
    ensures forall i | 0 <= i < |r| :: r[i] == pages[i].value
  {
    if |pages| == 0 then [] else [pages[0].value] + Texts(pages[1..])
  }

  /** pdfplumber is installed and read the file without raising. */
  predicate PlumberReads(b: Backends, path: string) {
    b.hasPlumber && b.plumber(path).Read?
  }

  /** PyPDF2 is installed, read the file, and every page gave text. */
  predicate PyPdfReads(b: Backends, path: string) {
    b.hasPyPdf && b.pypdf(path).Read? && AllText(b.pypdf(path).pages)
  }

  /** `extract_text_from_pdf(path)`. The first library that reads the file
      wins, even if every page is empty; a library that raises is passed
      over; when neither reads it the call raises `ImportError`. */
  function ExtractText(b: Backends, path: string): (r: Result<string>)
    ensures r.Ok? <==> PlumberReads(b, path) || PyPdfReads(b, path)
    ensures r.Raised? ==> r.exc == Exc(ImportFailure, NoPdfLibraryMessage)
    ensures PlumberReads(b, path) ==> r.value == Join(PageSeparator, OrEmpty(b.plumber(path).pages))
    ensures !PlumberReads(b, path) && PyPdfReads(b, path) ==>
              r.value == Join(PageSeparator, Texts(b.pypdf(path).pages))
  {
    if b.hasPlumber && b.plumber(path).Read? then
      Ok(Join(PageSeparator, OrEmpty(b.plumber(path).pages)))
    else if b.hasPyPdf && b.pypdf(path).Read? && AllText(b.pypdf(path).pages) then
      Ok(Join(PageSeparator, Texts(b.pypdf(path).pages)))
    else
      Raised(Exc(ImportFailure, NoPdfLibraryMessage))
  }

  /** The pages of an `n`-page document none of whose pages has text. */
  function Blank(n: nat): seq<Option<string>> {
    seq(n, i => None)
  }

  lemma {:induction false} JoinOfBlanks(n: nat)
    requires n > 0
    ensures |Join(PageSeparator, OrEmpty(Blank(n)))| == 2 * (n - 1)
    ensures forall k | 0 <= k < |Join(PageSeparator, OrEmpty(Blank(n)))| ::
              Join(PageSeparator, OrEmpty(Blank(n)))[k] == '\n'
  {
    var pages := OrEmpty(Blank(n));
    JoinOfEmpties(pages);
  }

  lemma {:induction false} JoinOfEmpties(parts: seq<string>)
    requires |parts| > 0
    requires forall i | 0 <= i < |parts| :: parts[i] == ""
    ensures |Join(PageSeparator, parts)| == 2 * (|parts| - 1)
    ensures forall k | 0 <= k < |Join(PageSeparator, parts)| :: Join(PageSeparator, parts)[k] == '\n'
    decreases |parts|
  {
    if |parts| > 1 {
      JoinOfEmpties(parts[1..]);
      assert Join(PageSeparator, parts) == parts[0] + PageSeparator + Join(PageSeparator, parts[1..]);
    }
  }

  /** pdfplumber that reads a document of blank pages does NOT hand over to
      PyPDF2: the result is the bare separators, whatever PyPDF2 would do. */
  lemma BlankPagesDoNotFallBack(b: Backends, path: string, n: nat)
    requires b.hasPlumber && b.plumber(path) == Read(Blank(n)) && n > 0
    ensures ExtractText(b, path).Ok?
    ensures |ExtractText(b, path).value| == 2 * (n - 1)
    ensures forall k | 0 <= k < |ExtractText(b, path).value| :: ExtractText(b, path).value[k] == '\n'
  {
    JoinOfBlanks(n);
  }

  /** PyPDF2 is consulted only when pdfplumber is missing or raises: changing
      what PyPDF2 does cannot change a pdfplumber result. */
  lemma FirstReaderWins(b: Backends, b': Backends, path: string)
    requires PlumberReads(b, path)
    requires b'.hasPlumber && b'.plumber(path) == b.plumber(path)
    ensures ExtractText(b', path) == ExtractText(b, path)
  {
  }

  /** A `None` page makes PyPDF2's join raise, which the handler turns into a
      fall-through: with pdfplumber absent the call raises `ImportError`. */
  lemma PyPdfNonePageFails(b: Backends, path: string)
    requires !b.hasPlumber && b.hasPyPdf && b.pypdf(path).Read?
    requires exists i | 0 <= i < |b.pypdf(path).pages| :: b.pypdf(path).pages[i].None?
    ensures ExtractText(b, path) == Raised(Exc(ImportFailure, NoPdfLibraryMessage))
  {
  }
}

=== FILE: loader.dfy ===
/**
 The document cache: the process-wide `cv_content` / `cv_metadata` pair and
 the two operations that fill it, `load_cv(path)` (both servers) and
 `load_all_pdfs_from_docs()` (scan-all server).
 */
module Loader {
  import opened Outcomes
  import opened Text
  import opened Extraction
  import opened Discovery

  /** `cv_metadata` after a load: one file, or every file that loaded. */
  datatype Meta =
    | Single(filePath: string, fileName: string, contentLength: nat)
    | Multi(filePaths: seq<string>, fileNames: seq<string>, contentLength: nat, numFiles: nat)

  /** `cv_content is None` (with `cv_metadata == {}`), or loaded text and its
      metadata. */
  datatype Cache = Unloaded | Loaded(text: string, meta: Meta)

  /** What the loader sees of the machine: which paths exist, the `docs/`
      directory, and the PDF libraries. */
  datatype Store = Store(existing: set<string>, docs: Docs, backends: Backends)

  datatype Outcome = Done | Failed(exc: Exc)

  /** A load's outcome and the cache after it. */
  datatype Step = Step(outcome: Outcome, cache: Cache)

  /** The metadata agrees with the text it describes. */
  predicate Valid(c: Cache) {
    c.Loaded? ==>
      match c.meta
      case Single(path, name, len) => name == Basename(path) && len == |c.text|
      case Multi(paths, names, len, count) =>
        && count == |paths| > 0
        && |names| == |paths|
        && (forall i | 0 <= i < |paths| :: names[i] == Basename(paths[i]))
        && len == |c.text|
  }

  /** `load_cv(path)`: a missing path raises `FileNotFoundError`; otherwise
      the text is extracted, and only when extraction returns are the
      content and the metadata replaced. */
  function LoadCv(s: Store, c: Cache, path: string): (t: Step)
    ensures path !in s.existing ==> t == Step(Failed(Exc(FileNotFound, "CV file not found: " + path)), c)
    ensures t.outcome.Done? <==> path in s.existing && ExtractText(s.backends, path).Ok?
    ensures t.outcome.Failed? ==> t.cache == c
    ensures path in s.existing && ExtractText(s.backends, path).Raised? ==>
              t.outcome == Failed(ExtractText(s.backends, path).exc)
    ensures t.outcome.Done? ==>
              && t.cache.Loaded?
              && t.cache.text == ExtractText(s.backends, path).value
              && t.cache.meta == Single(path, Basename(path), |t.cache.text|)
    ensures Valid(c) ==> Valid(t.cache)
  {
    if path !in s.existing then
      Step(Failed(Exc(FileNotFound, "CV file not found: " + path)), c)
    else
      match ExtractText(s.backends, path)
      case Raised(e) => Step(Failed(e), c)
      case Ok(text) => Step(Done, Loaded(text, Single(path, Basename(path), |text|)))
  }

  /** `extract_text_from_pdf` with the libraries at hand, as a function of
      the path. */
  function Extractor(b: Backends): string -> Result<string> {
    p => ExtractText(b, p)
  }

  /** One file that extracted, with its text. */
  datatype Section = Section(path: string, content: string)

  function SourcePaths(ss: seq<Section>): (r: seq<string>)
    ensures |r| == |ss|
    ensures forall i {:trigger r[i]} | 0 <= i < |ss| :: r[i] == ss[i].path
  {
    if |ss| == 0 then [] else [ss[0].path] + SourcePaths(ss[1..])
  }

  /** The files of `paths` that extract, in order, each with its text; the
      ones that raise are skipped. A path listed twice is kept twice. */
  function Extracted(extract: string -> Result<string>, paths: seq<string>): (r: seq<Section>)
    ensures |r| <= |paths|
    ensures forall i | 0 <= i < |r| :: extract(r[i].path) == Ok(r[i].content)
    ensures IsSubsequence(SourcePaths(r), paths)
    ensures forall p | p in paths && extract(p).Ok? :: p in SourcePaths(r)
  {
    if |paths| == 0 then []
    else
      var rest := Extracted(extract, paths[1..]);
      match extract(paths[0])
      case Ok(text) =>
        var r := [Section(paths[0], text)] + rest;
        assert r[1..] == rest;
        assert SourcePaths(r) == [paths[0]] + SourcePaths(rest);
        r
      case Raised(_) =>
        // every kept path extracts, so none of them is `paths[0]`
        assert |rest| > 0 ==> SourcePaths(rest)[0] != paths[0];
        rest
  }

  /** A path that extracts is kept as often as it is listed. */
  lemma {:induction false} ExtractedKeepsCopies(extract: string -> Result<string>, paths: seq<string>, p: string)
    requires extract(p).Ok?
    ensures multiset(SourcePaths(Extracted(extract, paths)))[p] == multiset(paths)[p]
    decreases |paths|
  {
    if |paths| > 0 {
      ExtractedKeepsCopies(extract, paths[1..], p);
      MultisetHead(paths, p);
      if extract(paths[0]).Ok? {
        MultisetHead(SourcePaths(Extracted(extract, paths)), p);
      }
    }
  }

  /** When no file extracts, nothing is kept. */
  lemma {:induction false} NothingExtractsNothingLoaded(extract: string -> Result<string>, paths: seq<string>)
    requires forall p | p in paths :: extract(p).Raised?
    ensures Extracted(extract, paths) == []
    decreases |paths|
  {
    if |paths| > 0 {
      NothingExtractsNothingLoaded(extract, paths[1..]);
    }
  }

  /** The heading the scan-all server puts in front of each file's text. */
  function SectionText(s: Section): string {
    Heading(s.path) + s.content
  }

  function SectionTexts(ss: seq<Section>): (r: seq<string>)
    ensures |r| == |ss|
    ensures forall i {:trigger r[i]} | 0 <= i < |ss| :: r[i] == SectionText(ss[i])
  {
    Map(SectionText, ss)
  }

  function BasenamesOf(paths: seq<string>): (r: seq<string>)
    ensures |r| == |paths|
    ensures forall i {:trigger r[i]} | 0 <= i < |paths| :: r[i] == Basename(paths[i])
  {
    if |paths| == 0 then [] else [Basename(paths[0])] + BasenamesOf(paths[1..])
  }

  const NoPdfsMessage: string := "No PDF files found in docs/ directory"
  const NothingLoadedMessage: string := "Failed to load any PDF files from docs directory"

  /** `load_all_pdfs_from_docs()`: every PDF of `docs/`, in sorted order,
      under its own heading, joined by newlines; a file that fails is
      skipped, and the cache changes only when at least one file loads. */
  function LoadAllPdfs(s: Store, c: Cache): (t: Step)
    ensures FindAllPdfs(s.docs) == [] ==> t == Step(Failed(Exc(FileNotFound, NoPdfsMessage)), c)
    ensures FindAllPdfs(s.docs) != [] && Extracted(Extractor(s.backends), FindAllPdfs(s.docs)) == [] ==>
              t == Step(Failed(Exc(OtherError, NothingLoadedMessage)), c)
    ensures t.outcome.Failed? ==> t.cache == c
    ensures t.outcome.Done? <==> Extracted(Extractor(s.backends), FindAllPdfs(s.docs)) != []
    ensures t.outcome.Done? ==>
              var loaded := Extracted(Extractor(s.backends), FindAllPdfs(s.docs));
              && t.cache.Loaded?
              && t.cache.text == Join("\n", SectionTexts(loaded))
              && t.cache.meta.Multi?
              && t.cache.meta.filePaths == SourcePaths(loaded)
    // names, count and length always describe the new content
    ensures t.outcome.Done? ==> Valid(t.cache)
    ensures Valid(c) ==> Valid(t.cache)
  {
    var pdfs := FindAllPdfs(s.docs);
    if pdfs == [] then
      Step(Failed(Exc(FileNotFound, NoPdfsMessage)), c)
    else
      var loaded := Extracted(Extractor(s.backends), pdfs);
      if loaded == [] then
        Step(Failed(Exc(OtherError, NothingLoadedMessage)), c)
      else
        var text := Join("\n", SectionTexts(loaded));
        var paths := SourcePaths(loaded);
        Step(Done, Loaded(text, Multi(paths, BasenamesOf(paths), |text|, |paths|)))
  }

  /** The heading the scan-all server puts in front of a file's text. */
  function Heading(path: string): string {
    "\n\n--- Content from " + Basename(path) + " ---\n\n"
  }

  /** A file found in `docs/` is headed by its own directory entry name. */
  lemma HeadingNamesTheEntry(dir: string, name: string, content: string)
    requires '/' !in name
    ensures StartsWith(SectionText(Section(PathIn(dir, name), content)),
                       "\n\n--- Content from " + name + " ---\n\n")
  {
    BasenameOfJoined(dir, name);
    StartsWithConcat(Heading(PathIn(dir, name)), content);
  }

  /** A multi-file load starts with the heading of the first file that
      loaded, which is one of the PDFs found; so its text is never empty. */
  lemma MultiLoadStartsWithHeading(s: Store, c: Cache)
    requires Extracted(Extractor(s.backends), FindAllPdfs(s.docs)) != []
    ensures var first := Extracted(Extractor(s.backends), FindAllPdfs(s.docs))[0];
            && first.path in FindAllPdfs(s.docs)
            && StartsWith(LoadAllPdfs(s, c).cache.text, Heading(first.path))
  {
    var pdfs := FindAllPdfs(s.docs);
    var loaded := Extracted(Extractor(s.backends), pdfs);
    var parts := SectionTexts(loaded);
    var first := loaded[0];
    SubsequenceHead(SourcePaths(loaded), pdfs);
    JoinShape("\n", parts);
    assert parts[0] == Heading(first.path) + first.content;
    StartsWithShorter(Join("\n", parts), Heading(first.path), first.content);
  }

  lemma {:induction false} ExtractedSnoc(extract: string -> Result<string>, paths: seq<string>, p: string)
    ensures Extracted(extract, paths + [p]) ==
              Extracted(extract, paths) + (if extract(p).Ok? then [Section(p, extract(p).value)] else [])
    decreases |paths|
  {
    if |paths| == 0 {
      assert (paths + [p])[1..] == [];
    } else {
      assert (paths + [p])[1..] == paths[1..] + [p];
      ExtractedSnoc(extract, paths[1..], p);
    }
  }

  /** One more path either adds its section to the end or changes nothing. */
  lemma ExtractedOneMore(extract: string -> Result<string>, done: seq<string>, p: string)
    ensures var r := extract(p);
            SourcePaths(Extracted(extract, done + [p])) == SourcePaths(Extracted(extract, done)) + (if r.Ok? then [p] else [])
    ensures var r := extract(p);
            SectionTexts(Extracted(extract, done + [p])) ==
              SectionTexts(Extracted(extract, done)) + (if r.Ok? then [SectionText(Section(p, r.value))] else [])
  {
    ExtractedSnoc(extract, done, p);
    var before := Extracted(extract, done);
    var r := extract(p);
    if r.Ok? {
      var sec := Section(p, r.value);
      assert Extracted(extract, done + [p]) == before + [sec];
      SourcePathsAppend(before, [sec]);
      SectionTextsAppend(before, [sec]);
    } else {
      assert Extracted(extract, done + [p]) == before + [];
      assert before + [] == before;
    }
  }

  lemma SourcePathsAppend(a: seq<Section>, b: seq<Section>)
    ensures SourcePaths(a + b) == SourcePaths(a) + SourcePaths(b)
  {
    var r, l := SourcePaths(a + b), SourcePaths(a) + SourcePaths(b);
    forall i | 0 <= i < |r| ensures r[i] == l[i] {
      if i < |a| {
        assert (a + b)[i] == a[i];
      } else {
        assert (a + b)[i] == b[i - |a|];
      }
    }
  }

  lemma SectionTextsAppend(a: seq<Section>, b: seq<Section>)
    ensures SectionTexts(a + b) == SectionTexts(a) + SectionTexts(b)
  {
    MapAppend(SectionText, a, b);
  }

  /** The loop of `load_all_pdfs_from_docs()` over the sorted paths, with
      `extract_text_from_pdf` passed in: it collects the heading-prefixed
      parts and the paths that loaded, which are exactly the sections
      `Extracted` names. */
  method CollectParts(extract: string -> Result<string>, pdfs: seq<string>) returns (parts: seq<string>, loadedFiles: seq<string>)
    ensures loadedFiles == SourcePaths(Extracted(extract, pdfs))
    ensures parts == SectionTexts(Extracted(extract, pdfs))
    ensures |parts| == |loadedFiles|
  {
    parts := [];
    loadedFiles := [];
    var i := 0;
    while i < |pdfs|
      invariant 0 <= i <= |pdfs|
      invariant loadedFiles == SourcePaths(Extracted(extract, pdfs[..i]))
      invariant parts == SectionTexts(Extracted(extract, pdfs[..i]))
    {
      var path := pdfs[i];
      var attempt := extract(path);
      PrefixOneMore(pdfs, i);
      ExtractedOneMore(extract, pdfs[..i], path);
      if attempt.Ok? {
        parts := parts + [SectionText(Section(path, attempt.value))];
        loadedFiles := loadedFiles + [path];
      }
      i := i + 1;
    }
    PrefixAll(pdfs);
  }
}

=== FILE: outcomes.dfy ===
/**
 Values that stand for the Python `None`, for the exceptions the two servers
 raise, and for the outcome of a call that may raise.
 */
module Outcomes {

  /** Python's `Optional[T]`: `None` or a value. */
  datatype Option<+T> = None | Some(value: T)

  /** The exception classes the servers' `except` clauses tell apart.
      `FileNotFound` is `FileNotFoundError`, `ImportFailure` is `ImportError`
      (and its subclasses), `BadValue` is `ValueError` (and its subclasses),
      `OtherError` is every other `Exception`. */
  datatype ExcKind = FileNotFound | ImportFailure | BadValue | OtherError

  /** A raised exception: its class and the text `str(e)` gives. */
  datatype Exc = Exc(kind: ExcKind, msg: string)

  /** The outcome of a call that either returns a value or raises. */
  datatype Result<+T> = Ok(value: T) | Raised(exc: Exc)
}

=== FILE: responder.dfy ===
/**
 The `chat_with_me(message, cv_path)` tool of both servers: make sure the
 cache holds a document (an explicit path always reloads; otherwise the
 `docs/` directory is consulted only while nothing is loaded), then build a
 bounded prompt, call the completion service once and shape its answer or
 the error into a result record. The service is an oracle passed in.
 */
module Responder {
  import opened Outcomes
  import opened Text
  import DotEnv
  import opened Discovery
  import opened Loader

  /** The scan-all server (main.py) and the single-best server
      (cv_digital_twin.py). */
  datatype Mode = ScanAll | SingleBest

  const MaxCvLength: nat := 12000
  const TruncationNote: string := "\n\n[Note: CV content truncated for length]"

  /** The document text as it goes into the prompt: unchanged up to 12,000
      characters, otherwise its first 12,000 characters and a note. */
  function Truncate(text: string): (r: string)
    ensures |text| <= MaxCvLength ==> r == text
    ensures |text| > MaxCvLength ==>
              && |r| == MaxCvLength + |TruncationNote|
              && StartsWith(text, r[..MaxCvLength])
              && EndsWith(r, TruncationNote)
    ensures |r| <= MaxCvLength + |TruncationNote|
  {
    if |text| > MaxCvLength then text[..MaxCvLength] + TruncationNote else text
  }

  const UserTurnHeader: string := "My CV/Resume:\n\n"
  const MessageLabel: string := "\n\n\nMessage: "

  /** The user turn sent to the service: the header, the document text, the
      label and the caller's message, each intact and in that order. */
  function UserTurn(cvText: string, message: string): (r: string)
    ensures |r| == |UserTurnHeader| + |cvText| + |MessageLabel| + |message|
    ensures StartsWith(r, UserTurnHeader + cvText)
    ensures EndsWith(r, MessageLabel + message)
  {
    UserTurnHeader + cvText + MessageLabel + message
  }

  /** Reads a user turn back, given the length of the document part. */
  function ReadUserTurn(u: string, cvLength: nat): Option<(string, string)> {
    var h := |UserTurnHeader|;
    var m := h + cvLength;
    if |u| >= m + |MessageLabel| && u[..h] == UserTurnHeader && u[m..m + |MessageLabel|] == MessageLabel
    then Some((u[h..m], u[m + |MessageLabel|..]))
    else None
  }

  /** The user turn carries the document text and the caller's message
      intact: reading it back gives both. */
  lemma UserTurnRoundTrip(cvText: string, message: string)
    ensures ReadUserTurn(UserTurn(cvText, message), |cvText|) == Some((cvText, message))
  {
    var u := UserTurn(cvText, message);
    var h := |UserTurnHeader|;
    var m := h + |cvText|;
    assert u[..h] == UserTurnHeader;
    assert u[h..m] == cvText;
    assert u[m..m + |MessageLabel|] == MessageLabel;
    assert u[m + |MessageLabel|..] == message;
  }

  /** Whatever reads back as a user turn is one. */
  lemma ReadUserTurnSound(u: string, cvLength: nat)
    requires ReadUserTurn(u, cvLength).Some?
    ensures var (cvText, message) := ReadUserTurn(u, cvLength).value;
            |cvText| == cvLength && UserTurn(cvText, message) == u
  {
    var h := |UserTurnHeader|;
    var m := h + cvLength;
    var k := m + |MessageLabel|;
    assert u == u[..h] + u[h..m] + u[m..k] + u[k..];
  }

  /** The opening both servers' system turns share. */
  const PersonaOpening: string :=
    "You are a digital twin of a person based on their CV/resume. \nAnswer questions naturally and conversationally as if you are this person. "

  /** The single-best server's rule to keep to the document... */
  const GroundingRule: string := "\nOnly use information " + "that is explicitly stated in the CV. "
  /** ...and its leave to invent what the document does not say. */
  const InventionAllowance: string := "\nIf information is not available in the CV, feel free to make up a response."

  /** The scan-all server's invitation to be casual instead. */
  const CasualRule: string := "Don't be too professional, " + "act like a normal person with fun personality."

  const CasualPrompt: string := PersonaOpening + CasualRule
  const FactualPrompt: string := PersonaOpening + GroundingRule + InventionAllowance

  lemma RulesDiffer()
    ensures CasualRule[0] != GroundingRule[0]
  {
  }

  /** Each server's fixed system turn: both open with the persona, and only
      the single-best server's goes on to the grounding rule. */
  function SystemPrompt(mode: Mode): (r: string)
    ensures StartsWith(r, PersonaOpening)
    ensures mode == SingleBest <==> StartsWith(r[|PersonaOpening|..], GroundingRule)
    ensures mode == SingleBest ==> EndsWith(r, InventionAllowance)
    // after the opening, exactly the mode's own rules
    ensures mode == ScanAll ==> r[|PersonaOpening|..] == CasualRule
    ensures mode == SingleBest ==> r[|PersonaOpening|..] == GroundingRule + InventionAllowance
  {
    match mode
    case ScanAll =>
      assert CasualPrompt[|PersonaOpening|..] == CasualRule;
      RulesDiffer();
      CasualPrompt
    case SingleBest =>
      assert FactualPrompt[|PersonaOpening|..] == GroundingRule + InventionAllowance;
      FactualPrompt
  }

  const DefaultModel: string := "gpt-5-mini-2025-08-07"
  const ModelVariable: string := "OPENAI_MODEL"
  const KeyVariable: string := "OPENAI_API_KEY"

  /** `os.getenv("OPENAI_MODEL", default)`: an empty value is still a value. */
  function ModelName(env: map<string, string>): (r: string)
    ensures ModelVariable in env ==> r == env[ModelVariable]
    ensures ModelVariable !in env ==> r == DefaultModel
  {
    if ModelVariable in env then env[ModelVariable] else DefaultModel
  }

  /** The model a `.env` file names is the one requested: its last
      `OPENAI_MODEL=` line wins over the process environment. */
  lemma DotEnvChoosesModel(env: map<string, string>, lines: seq<string>)
    requires DotEnv.LastValue(lines, ModelVariable).Some?
    ensures ModelName(DotEnv.Load(env, lines)) == DotEnv.LastValue(lines, ModelVariable).value
  {
    DotEnv.LoadLastWins(env, lines, ModelVariable);
  }

  /** The lazily created completion client, holding the key it was made with. */
  datatype Client = Client(apiKey: string)

  const NoOpenAiMessage: string := "OpenAI library not installed. Please install it:\n  pip install openai"
  const NoKeyMessage: string :=
    "OPENAI_API_KEY environment variable not set. Please set it with: export OPENAI_API_KEY='your-api-key'"

  /** `get_openai_client()`: no library raises `ImportError`; an existing
      client is reused without looking at the key again; otherwise a
      missing or empty key raises `ValueError`. */
  function GetClient(hasOpenAI: bool, env: map<string, string>, slot: Option<Client>): (r: Result<Client>)
    ensures !hasOpenAI ==> r == Raised(Exc(ImportFailure, NoOpenAiMessage))
    ensures hasOpenAI && slot.Some? ==> r == Ok(slot.value)
    ensures hasOpenAI && slot.None? ==> (r.Ok? <==> KeyVariable in env && env[KeyVariable] != "")
    ensures hasOpenAI && r.Raised? ==> r.exc == Exc(BadValue, NoKeyMessage)
    ensures slot.None? && r.Ok? ==> r.value == Client(env[KeyVariable])
  {
    if !hasOpenAI then Raised(Exc(ImportFailure, NoOpenAiMessage))
    else if slot.Some? then Ok(slot.value)
    else if KeyVariable !in env || env[KeyVariable] == "" then Raised(Exc(BadValue, NoKeyMessage))
    else Ok(Client(env[KeyVariable]))
  }

  const ApiErrorPrefix: string := "Error calling OpenAI API: "

  /** The message of the error result for an exception raised after the
      document is loaded: `ImportError` and `ValueError` speak for
      themselves, anything else is prefixed. */
  function ClassifyError(e: Exc): (r: string)
    ensures e.kind in {ImportFailure, BadValue} ==> r == e.msg
    ensures e.kind !in {ImportFailure, BadValue} ==> StartsWith(r, ApiErrorPrefix) && r[|ApiErrorPrefix|..] == e.msg
  {
    match e.kind
    case ImportFailure => e.msg
    case BadValue => e.msg
    case _ => ApiErrorPrefix + e.msg
  }

  /** The chat completion request: model, system turn, user turn. */
  datatype Request = Request(model: string, system: string, user: string)

  /** What the service returns: the first choice's content and the model
      that answered. */
  datatype ServiceAnswer = ServiceAnswer(content: string, model: string)

  const SourceLabel: string := "CV Digital Twin (OpenAI)"

  /** The JSON object the tool returns, as a record. */
  datatype Reply =
    | Success(message: string, response: string, source: string, model: string)
    | Error(message: string)

  /** What one call sees as fixed: the server mode, the filesystem, whether
      the OpenAI library is installed, and the environment. */
  datatype Config = Config(mode: Mode, store: Store, hasOpenAI: bool, env: map<string, string>)

  /** The process-wide globals: the document cache and the client. */
  datatype State = State(cache: Cache, client: Option<Client>)

  /** One call's result, the globals after it, and the request sent to the
      service, if one was. */
  datatype Turn = Turn(reply: Reply, state: State, sent: Option<Request>)

  /** The prompt built from loaded text and a message. */
  function PromptFor(cfg: Config, text: string, message: string): Request {
    Request(ModelName(cfg.env), SystemPrompt(cfg.mode), UserTurn(Truncate(text), message))
  }

  /** The `try` block after loading: get the client, build the prompt, call
      the service once, shape the answer or the error. */
  function Respond(cfg: Config, st: State, service: Request -> Result<ServiceAnswer>, message: string): (t: Turn)
    requires st.cache.Loaded?
    ensures t.state.cache == st.cache
    ensures t.sent.Some? <==> GetClient(cfg.hasOpenAI, cfg.env, st.client).Ok?
    ensures t.sent.None? ==> t == Turn(Error(ClassifyError(GetClient(cfg.hasOpenAI, cfg.env, st.client).exc)), st, None)
    ensures t.sent.Some? ==> t.sent.value == PromptFor(cfg, st.cache.text, message)
    ensures t.sent.Some? ==> t.state.client == Some(GetClient(cfg.hasOpenAI, cfg.env, st.client).value)
    ensures t.reply.Success? <==> t.sent.Some? && service(t.sent.value).Ok?
    ensures t.reply.Success? ==>
              && t.reply.message == message
              && t.reply.source == SourceLabel
              && service(t.sent.value) == Ok(ServiceAnswer(t.reply.response, t.reply.model))
    ensures t.sent.Some? && t.reply.Error? ==> service(t.sent.value).Raised? && t.reply.message == ClassifyError(service(t.sent.value).exc)
  {
    match GetClient(cfg.hasOpenAI, cfg.env, st.client)
    case Raised(e) => Turn(Error(ClassifyError(e)), st, None)
    case Ok(client) =>
      var request := PromptFor(cfg, st.cache.text, message);
      var st' := State(st.cache, Some(client));
      match service(request)
      case Ok(answer) => Turn(Success(message, answer.content, SourceLabel, answer.model), st', Some(request))
      case Raised(e) => Turn(Error(ClassifyError(e)), st', Some(request))
  }

  const NoCvMessage: string :=
    "No CV loaded. Please provide a cv_path parameter or place your CV PDF in the docs/ directory."
  const LoadCvErrorPrefix: string := "Failed to load CV: "
  const DocsErrorPrefix: string := "Failed to load PDFs from docs directory: "

  /** The scan-all server's handling of a failed `load_all_pdfs_from_docs()`:
      `FileNotFoundError` verbatim, anything else prefixed. */
  function DocsError(e: Exc): (r: string)
    ensures e.kind == FileNotFound ==> r == e.msg
    ensures e.kind != FileNotFound ==> StartsWith(r, DocsErrorPrefix) && r[|DocsErrorPrefix|..] == e.msg
  {
    if e.kind == FileNotFound then e.msg else DocsErrorPrefix + e.msg
  }

  /** `if cv_content is None:` auto-discovery, then the response. */
  function AfterExplicit(cfg: Config, st: State, service: Request -> Result<ServiceAnswer>, message: string): (t: Turn)
    ensures st.cache.Loaded? ==> t.state.cache == st.cache
    ensures t.sent.None? ==> t.state.client == st.client
    ensures t.sent.Some? ==> t.state.cache.Loaded? && t.sent.value == PromptFor(cfg, t.state.cache.text, message)
    ensures t.reply.Success? ==>
              && t.sent.Some?
              && t.reply.message == message
              && t.reply.source == SourceLabel
              && service(t.sent.value) == Ok(ServiceAnswer(t.reply.response, t.reply.model))
    ensures t.sent.Some? && t.reply.Error? ==> service(t.sent.value).Raised? && t.reply.message == ClassifyError(service(t.sent.value).exc)
    ensures Valid(st.cache) ==> Valid(t.state.cache)
    ensures st.client.Some? ==> t.state.client == st.client
    // a loaded document is answered from as it is
    ensures st.cache.Loaded? ==> t == Respond(cfg, st, service, message)
    // the scan-all server loads every PDF of `docs/` and answers from them
    ensures st.cache.Unloaded? && cfg.mode == ScanAll ==>
              var a := LoadAllPdfs(cfg.store, st.cache);
              && (a.outcome.Failed? ==> t == Turn(Error(DocsError(a.outcome.exc)), st, None))
              && (a.outcome.Done? ==> t == Respond(cfg, State(a.cache, st.client), service, message))
    // the single-best server loads the one PDF it picks and answers from it
    ensures st.cache.Unloaded? && cfg.mode == SingleBest && FindCv(cfg.store.docs).None? ==>
              t == Turn(Error(NoCvMessage), st, None)
    ensures st.cache.Unloaded? && cfg.mode == SingleBest && FindCv(cfg.store.docs).Some? ==>
              var path := FindCv(cfg.store.docs).value;
              var l := LoadCv(cfg.store, st.cache, path);
              && (l.outcome.Failed? ==>
                    t == Turn(Error("Found CV at " + path + " but failed to load: " + l.outcome.exc.msg), st, None))
              && (l.outcome.Done? ==> t == Respond(cfg, State(l.cache, st.client), service, message))
  {
    if st.cache.Loaded? then Respond(cfg, st, service, message)
    else
      match cfg.mode
      case ScanAll =>
        var a := LoadAllPdfs(cfg.store, st.cache);
        if a.outcome.Failed? then Turn(Error(DocsError(a.outcome.exc)), st, None)
        else Respond(cfg, State(a.cache, st.client), service, message)
      case SingleBest =>
        match FindCv(cfg.store.docs)
        case None => Turn(Error(NoCvMessage), st, None)
        case Some(path) =>
          var l := LoadCv(cfg.store, st.cache, path);
          if l.outcome.Failed? then
            Turn(Error("Found CV at " + path + " but failed to load: " + l.outcome.exc.msg), st, None)
          else Respond(cfg, State(l.cache, st.client), service, message)
  }

  /** A `cv_path` counts only when it is a non-empty string. */
  predicate Explicit(cvPath: Option<string>) {
    cvPath.Some? && cvPath.value != ""
  }

  /** `_chat_with_me_impl(message, cv_path)` of either server. */
  function Chat(cfg: Config, st: State, service: Request -> Result<ServiceAnswer>, message: string, cvPath: Option<string>): (t: Turn)
    // an explicit path always reloads, whatever is cached, and a failure
    // there is reported at once, with nothing else tried
    ensures Explicit(cvPath) && LoadCv(cfg.store, st.cache, cvPath.value).outcome.Failed? ==>
              t == Turn(Error(LoadCvErrorPrefix + LoadCv(cfg.store, st.cache, cvPath.value).outcome.exc.msg), st, None)
    ensures Explicit(cvPath) && LoadCv(cfg.store, st.cache, cvPath.value).outcome.Done? ==>
              t.state.cache == LoadCv(cfg.store, st.cache, cvPath.value).cache
    // without one, a loaded cache is never reloaded
    ensures !Explicit(cvPath) && st.cache.Loaded? ==> t.state.cache == st.cache
    // a request goes out only with a document loaded, built from that document
    ensures t.sent.Some? ==> t.state.cache.Loaded? && t.sent.value == PromptFor(cfg, t.state.cache.text, message)
    // a success echoes the message and reports what the service said
    ensures t.reply.Success? ==>
              && t.sent.Some?
              && t.reply.message == message
              && t.reply.source == SourceLabel
              && service(t.sent.value) == Ok(ServiceAnswer(t.reply.response, t.reply.model))
    ensures t.sent.Some? && t.reply.Error? ==> service(t.sent.value).Raised? && t.reply.message == ClassifyError(service(t.sent.value).exc)
    // nothing unloads the cache, the metadata stays consistent, and a
    // client once made is kept
    ensures st.cache.Loaded? ==> t.state.cache.Loaded?
    ensures Valid(st.cache) ==> Valid(t.state.cache)
    ensures st.client.Some? ==> t.state.client == st.client
    ensures t.sent.None? ==> t.state.client == st.client
    // the success paths: an explicit path that loads is answered from at
    // once, and without one the document found or already cached is
    ensures Explicit(cvPath) && LoadCv(cfg.store, st.cache, cvPath.value).outcome.Done? ==>
              t == Respond(cfg, State(LoadCv(cfg.store, st.cache, cvPath.value).cache, st.client), service, message)
    ensures !Explicit(cvPath) && st.cache.Loaded? ==> t == Respond(cfg, st, service, message)
    ensures !Explicit(cvPath) && st.cache.Unloaded? && cfg.mode == ScanAll
              && LoadAllPdfs(cfg.store, st.cache).outcome.Done? ==>
              t == Respond(cfg, State(LoadAllPdfs(cfg.store, st.cache).cache, st.client), service, message)
    ensures !Explicit(cvPath) && st.cache.Unloaded? && cfg.mode == SingleBest && FindCv(cfg.store.docs).Some?
              && LoadCv(cfg.store, st.cache, FindCv(cfg.store.docs).value).outcome.Done? ==>
              t == Respond(cfg, State(LoadCv(cfg.store, st.cache, FindCv(cfg.store.docs).value).cache, st.client), service, message)
  {
    if Explicit(cvPath) then
      var l := LoadCv(cfg.store, st.cache, cvPath.value);
      if l.outcome.Failed? then Turn(Error(LoadCvErrorPrefix + l.outcome.exc.msg), st, None)
      else AfterExplicit(cfg, State(l.cache, st.client), service, message)
    else
      AfterExplicit(cfg, st, service, message)
  }

  /** `if cv_path:` tests truthiness, so an empty path is no path at all. */
  lemma EmptyPathIsIgnored(cfg: Config, st: State, service: Request -> Result<ServiceAnswer>, message: string)
    ensures Chat(cfg, st, service, message, Some("")) == Chat(cfg, st, service, message, None)
  {
  }

  /** Scan-all server, nothing cached, no PDF in `docs/` (or no `docs/`):
      the fixed error, the cache stays empty, the service is not called. */
  lemma ScanAllNothingFound(cfg: Config, st: State, service: Request -> Result<ServiceAnswer>, message: string, cvPath: Option<string>)
    requires cfg.mode == ScanAll && st.cache.Unloaded? && !Explicit(cvPath)
    requires !cfg.store.docs.present || forall n | n in cfg.store.docs.entries :: !IsPdfName(n)
    ensures Chat(cfg, st, service, message, cvPath) == Turn(Error(NoPdfsMessage), st, None)
  {
  }

  /** Scan-all server, nothing cached, every PDF fails to extract. */
  lemma ScanAllEveryFileFails(cfg: Config, st: State, service: Request -> Result<ServiceAnswer>, message: string, cvPath: Option<string>)
    requires cfg.mode == ScanAll && st.cache.Unloaded? && !Explicit(cvPath)
    requires FindAllPdfs(cfg.store.docs) != []
    requires forall p | p in FindAllPdfs(cfg.store.docs) :: Extraction.ExtractText(cfg.store.backends, p).Raised?
    ensures Chat(cfg, st, service, message, cvPath) == Turn(Error(DocsErrorPrefix + NothingLoadedMessage), st, None)
  {
    var pdfs := FindAllPdfs(cfg.store.docs);
    NothingExtractsNothingLoaded(Extractor(cfg.store.backends), pdfs);
    var e := Exc(OtherError, NothingLoadedMessage);
    assert LoadAllPdfs(cfg.store, st.cache) == Step(Failed(e), st.cache);
    assert AfterExplicit(cfg, st, service, message) == Turn(Error(DocsError(e)), st, None);
  }

  /** Single-best server, nothing cached, no PDF to be found. */
  lemma SingleBestNothingFound(cfg: Config, st: State, service: Request -> Result<ServiceAnswer>, message: string, cvPath: Option<string>)
    requires cfg.mode == SingleBest && st.cache.Unloaded? && !Explicit(cvPath)
    requires FindCv(cfg.store.docs).None?
    ensures Chat(cfg, st, service, message, cvPath) == Turn(Error(NoCvMessage), st, None)
  {
  }

  /** Single-best server: a CV found in `docs/` that does not load is named
      in the error, and the cache stays empty. */
  lemma SingleBestFoundButFails(cfg: Config, st: State, service: Request -> Result<ServiceAnswer>, message: string, cvPath: Option<string>)
    requires cfg.mode == SingleBest && st.cache.Unloaded? && !Explicit(cvPath)
    requires FindCv(cfg.store.docs).Some?
    requires LoadCv(cfg.store, st.cache, FindCv(cfg.store.docs).value).outcome.Failed?
    ensures var path := FindCv(cfg.store.docs).value;
            Chat(cfg, st, service, message, cvPath) ==
              Turn(Error("Found CV at " + path + " but failed to load: "
                         + LoadCv(cfg.store, st.cache, path).outcome.exc.msg), st, None)
  {
  }

  /** Without a key, and before any client exists, no request is sent and the
      client slot stays empty; with a document already loaded the reply is
      the credential error. */
  lemma MissingKeyNeverCalls(cfg: Config, st: State, service: Request -> Result<ServiceAnswer>, message: string, cvPath: Option<string>)
    requires cfg.hasOpenAI && st.client.None?
    requires KeyVariable !in cfg.env || cfg.env[KeyVariable] == ""
    ensures Chat(cfg, st, service, message, cvPath).sent.None?
    ensures Chat(cfg, st, service, message, cvPath).state.client.None?
    ensures st.cache.Loaded? && !Explicit(cvPath) ==>
              Chat(cfg, st, service, message, cvPath).reply == Error(NoKeyMessage)
  {
  }

  /** Without the OpenAI library nothing is ever sent. */
  lemma NoLibraryNeverCalls(cfg: Config, st: State, service: Request -> Result<ServiceAnswer>, message: string, cvPath: Option<string>)
    requires !cfg.hasOpenAI
    ensures Chat(cfg, st, service, message, cvPath).sent.None?
    ensures st.cache.Loaded? && !Explicit(cvPath) ==>
              Chat(cfg, st, service, message, cvPath).reply == Error(NoOpenAiMessage)
  {
  }

  /** When no request goes out the service cannot matter: any other service
      gives the same turn. */
  lemma UnsentMeansServiceIrrelevant(cfg: Config, st: State, s1: Request -> Result<ServiceAnswer>,
                                     s2: Request -> Result<ServiceAnswer>, message: string, cvPath: Option<string>)
    requires Chat(cfg, st, s1, message, cvPath).sent.None?
    ensures Chat(cfg, st, s2, message, cvPath) == Chat(cfg, st, s1, message, cvPath)
  {
    if Explicit(cvPath) {
      var l := LoadCv(cfg.store, st.cache, cvPath.value);
      if l.outcome.Done? {
        AfterExplicitUnsent(cfg, State(l.cache, st.client), s1, s2, message);
      }
    } else {
      AfterExplicitUnsent(cfg, st, s1, s2, message);
    }
  }

  lemma AfterExplicitUnsent(cfg: Config, st: State, s1: Request -> Result<ServiceAnswer>,
                            s2: Request -> Result<ServiceAnswer>, message: string)
    requires AfterExplicit(cfg, st, s1, message).sent.None?
    ensures AfterExplicit(cfg, st, s2, message) == AfterExplicit(cfg, st, s1, message)
  {
    if st.cache.Loaded? {
      RespondUnsent(cfg, st, s1, s2, message);
    } else if cfg.mode == ScanAll {
      var a := LoadAllPdfs(cfg.store, st.cache);
      if a.outcome.Done? {
        RespondUnsent(cfg, State(a.cache, st.client), s1, s2, message);
      }
    } else if FindCv(cfg.store.docs).Some? {
      var l := LoadCv(cfg.store, st.cache, FindCv(cfg.store.docs).value);
      if l.outcome.Done? {
        RespondUnsent(cfg, State(l.cache, st.client), s1, s2, message);
      }
    }
  }

  lemma RespondUnsent(cfg: Config, st: State, s1: Request -> Result<ServiceAnswer>,
                      s2: Request -> Result<ServiceAnswer>, message: string)
    requires st.cache.Loaded? && Respond(cfg, st, s1, message).sent.None?
    ensures Respond(cfg, st, s2, message) == Respond(cfg, st, s1, message)
  {
  }

  /** With a path that loads, a library, a key and a service that answers,
      the reply is a success echoing the message. */
  lemma AnswersWhenAllWorks(cfg: Config, st: State, service: Request -> Result<ServiceAnswer>, message: string, path: string)
    requires path != "" && LoadCv(cfg.store, st.cache, path).outcome.Done?
    requires cfg.hasOpenAI && (st.client.Some? || (KeyVariable in cfg.env && cfg.env[KeyVariable] != ""))
    requires var text := LoadCv(cfg.store, st.cache, path).cache.text;
             service(PromptFor(cfg, text, message)).Ok?
    ensures var t := Chat(cfg, st, service, message, Some(path));
            t.reply.Success? && t.reply.message == message && t.reply.source == SourceLabel
  {
  }

  /** Asking twice with the same explicit path, with the filesystem unchanged
      between the calls, reloads twice: the second call ends with the same
      cache as the first and, if the first reached the service, sends the
      same document again. */
  lemma SamePathTwice(cfg: Config, st: State, s1: Request -> Result<ServiceAnswer>, s2: Request -> Result<ServiceAnswer>,
                      message: string, path: string)
    requires path != ""
    ensures var t1 := Chat(cfg, st, s1, message, Some(path));
            var t2 := Chat(cfg, t1.state, s2, message, Some(path));
            && t2.state.cache == t1.state.cache
            && (t1.sent.Some? ==> t2.sent == t1.sent)
  {
  }
}

=== FILE: text.dfy ===
/**
 The string operations of Python's standard library that the servers rely on:
 `str.strip()`, `str.split("=", 1)`, `sep.join(parts)`, `os.path.basename`,
 `str.endswith`, and `sorted` over strings (code-point order).
 */
module Text {

  /** Python's `str.isspace()` for one character: the characters `str.strip()`
      with no argument removes. */
  predicate IsSpace(c: char) {
    var n := c as int;
    n == 0x20 || 0x09 <= n <= 0x0D || 0x1C <= n <= 0x1F || n == 0x85 || n == 0xA0
    || n == 0x1680 || 0x2000 <= n <= 0x200A || n == 0x2028 || n == 0x2029
    || n == 0x202F || n == 0x205F || n == 0x3000
  }

  predicate AllSpace(s: string) {
    forall k | 0 <= k < |s| :: IsSpace(s[k])
  }

  /** The number of whitespace characters at the front of `s`. */
  function LeadingSpace(s: string): (n: nat)
    ensures n <= |s|
    ensures AllSpace(s[..n])
    ensures n < |s| ==> !IsSpace(s[n])
  {
    if |s| == 0 || !IsSpace(s[0]) then 0
    else
      var m := LeadingSpace(s[1..]);
      assert s[..1 + m] == [s[0]] + s[1..][..m];
      1 + m
  }

  /** The number of whitespace characters at the end of `s`. */
  function TrailingSpace(s: string): (n: nat)
    ensures n <= |s|
    ensures AllSpace(s[|s| - n..])
    ensures n < |s| ==> !IsSpace(s[|s| - n - 1])
  {
    if |s| == 0 || !IsSpace(s[|s| - 1]) then 0
    else
      var init := s[..|s| - 1];
      var m := TrailingSpace(init);
      assert s[|s| - (1 + m)..] == init[|init| - m..] + [s[|s| - 1]];
      1 + m
  }

  /** Cutting `lo` characters from the front and `n` from the back leaves a
      slice of `s` followed by the cut-off tail. */
  lemma Trimmed(s: string, lo: nat, n: nat)
    requires lo <= |s| && n <= |s| - lo
    ensures var t := s[lo..];
            var r := t[..|t| - n];
            && r == s[lo..lo + |r|]
            && s[lo + |r|..] == t[|t| - n..]
            && (r != [] ==> r[0] == s[lo] && r[|r| - 1] == t[|t| - n - 1])
  {
  }

  /** Python's `s.strip()`: `s` without its leading and trailing whitespace.
      The contract pins the result down: it sits in `s` right after the
      leading whitespace, everything after it is whitespace, and it neither
      starts nor ends with whitespace. */
  function Strip(s: string): (r: string)
    ensures LeadingSpace(s) + |r| <= |s|
    ensures r == s[LeadingSpace(s)..LeadingSpace(s) + |r|]
    ensures AllSpace(s[LeadingSpace(s) + |r|..])
    ensures r == [] || (!IsSpace(r[0]) && !IsSpace(r[|r| - 1]))
  {
    var lo := LeadingSpace(s);
    var t := s[lo..];
    var n := TrailingSpace(t);
    var r := t[..|t| - n];
    Trimmed(s, lo, n);
    r
  }

  /** Stripping twice is stripping once. */
  lemma StripIdempotent(s: string)
    ensures Strip(Strip(s)) == Strip(s)
  {
    var r := Strip(s);
    if r != [] {
      assert LeadingSpace(r) == 0;
    }
  }

  /** The index of the first `c` in `s`, or `|s|` when there is none. */
  function IndexOf(s: string, c: char): (i: nat)
    ensures i <= |s|
    ensures i < |s| ==> s[i] == c
    ensures forall k | 0 <= k < i :: s[k] != c
  {
    if |s| == 0 then 0
    else if s[0] == c then 0
    else 1 + IndexOf(s[1..], c)
  }

  /** Python's `s.rfind(c)`: the index of the last `c` in `s`, or -1. */
  function LastIndexOf(s: string, c: char): (i: int)
    ensures -1 <= i < |s|
    ensures 0 <= i ==> s[i] == c
    ensures forall k | i < k < |s| :: s[k] != c
  {
    if |s| == 0 then -1
    else if s[|s| - 1] == c then |s| - 1
    else LastIndexOf(s[..|s| - 1], c)
  }

  /** POSIX `os.path.basename(p)`: the longest suffix of `p` without a `/`. */
  function Basename(p: string): (b: string)
    ensures |b| <= |p| && p[|p| - |b|..] == b
    ensures '/' !in b
    ensures |b| < |p| ==> p[|p| - |b| - 1] == '/'
  {
    p[LastIndexOf(p, '/') + 1..]
  }

  /** The base name of a path built as `dir + "/" + name` is `name`, as long
      as `name` holds no `/`. */
  lemma BasenameOfJoined(dir: string, name: string)
    requires '/' !in name
    ensures Basename(dir + "/" + name) == name
  {
    var p := dir + "/" + name;
    var b := Basename(p);
    assert p[|p| - |name| - 1] == '/';
    assert p[|p| - |name|..] == name;
  }

  predicate StartsWith(s: string, prefix: string) {
    |prefix| <= |s| && s[..|prefix|] == prefix
  }

  /** A string that starts with `a + b` starts with `a`. */
  lemma StartsWithShorter(s: string, a: string, b: string)
    requires StartsWith(s, a + b)
    ensures StartsWith(s, a)
  {
    assert s[..|a|] == (a + b)[..|a|];
  }

  predicate EndsWith(s: string, suffix: string) {
    |suffix| <= |s| && s[|s| - |suffix|..] == suffix
  }

  /** The summed length of all parts. */
  function TotalLength(parts: seq<string>): nat {
    if |parts| == 0 then 0 else |parts[0]| + TotalLength(parts[1..])
  }

  /** Reference reading of `sep.join(parts)`, built from the right: joining
      one more part appends the separator and that part. */
  function JoinRight(sep: string, parts: seq<string>): string
    decreases |parts|
  {
    if |parts| == 0 then ""
    else if |parts| == 1 then parts[0]
    else JoinRight(sep, parts[..|parts| - 1]) + sep + parts[|parts| - 1]
  }

  /** Concatenation regrouped: a separator can be seen as closing the
      front or opening the back. */
  lemma Regroup(a: string, sep: string, m: string, l: string)
    ensures a + sep + m + sep + l == a + sep + (m + sep + l)
  {
  }

  /** The reference reading also splits off the first part. */
  lemma {:induction false} JoinRightCons(sep: string, parts: seq<string>)
    requires |parts| > 1
    ensures JoinRight(sep, parts) == parts[0] + sep + JoinRight(sep, parts[1..])
    decreases |parts|
  {
    var n := |parts|;
    var init := parts[..n - 1];
    assert parts[1..][|parts[1..]| - 1] == parts[n - 1];
    if n == 2 {
      assert init == [parts[0]];
      assert parts[1..] == [parts[1]];
    } else {
      JoinRightCons(sep, init);
      assert init[1..] == parts[1..][..n - 2];
      Regroup(parts[0], sep, JoinRight(sep, init[1..]), parts[n - 1]);
    }
  }

  lemma StartsWithConcat(a: string, b: string)
    ensures StartsWith(a + b, a)
  {
    assert (a + b)[..|a|] == a;
  }

  lemma EndsWithConcat(a: string, b: string, suffix: string)
    requires EndsWith(b, suffix)
    ensures EndsWith(a + b, suffix)
  {
    assert (a + b)[|a + b| - |suffix|..] == b[|b| - |suffix|..];
  }

  /** The length of one more part and separator, in the join's formula. */
  lemma JoinLengthStep(n: int, sepLength: nat, first: nat, restTotal: nat, restLength: nat)
    requires n > 1 && restLength == restTotal + (n - 2) * sepLength
    ensures first + sepLength + restLength == (first + restTotal) + (n - 1) * sepLength
  {
    assert (n - 1) * sepLength == sepLength + (n - 2) * sepLength;
  }

  /** Python's `sep.join(parts)`, built from the left: the same string as
      the reference reading built from the right. */
  function Join(sep: string, parts: seq<string>): (r: string)
    ensures r == JoinRight(sep, parts)
    decreases |parts|
  {
    if |parts| == 0 then ""
    else if |parts| == 1 then parts[0]
    else
      JoinRightCons(sep, parts);
      parts[0] + sep + Join(sep, parts[1..])
  }

  /** The joined string has the parts' total length plus one separator
      between each two neighbours, starts with the first part and ends with
      the last. */
  lemma {:induction false} JoinShape(sep: string, parts: seq<string>)
    requires |parts| > 0
    ensures |Join(sep, parts)| == TotalLength(parts) + (|parts| - 1) * |sep|
    ensures StartsWith(Join(sep, parts), parts[0])
    ensures EndsWith(Join(sep, parts), parts[|parts| - 1])
    decreases |parts|
  {
    if |parts| > 1 {
      var n := |parts|;
      var rest := Join(sep, parts[1..]);
      var r := Join(sep, parts);
      assert r == parts[0] + sep + rest;
      JoinShape(sep, parts[1..]);
      assert |r| == TotalLength(parts) + (n - 1) * |sep| by {
        JoinLengthStep(n, |sep|, |parts[0]|, TotalLength(parts[1..]), |rest|);
      }
      assert StartsWith(r, parts[0]) by {
        StartsWithConcat(parts[0], sep + rest);
      }
      assert EndsWith(r, parts[n - 1]) by {
        assert parts[1..][|parts[1..]| - 1] == parts[n - 1];
        EndsWithConcat(parts[0] + sep, rest, parts[n - 1]);
      }
    }
  }

  /** `a` occurs in `b` in order, possibly with gaps. */
  predicate IsSubsequence<T(==)>(a: seq<T>, b: seq<T>)
    decreases |b|
  {
    |a| == 0 || (|b| > 0 && if a[0] == b[0] then IsSubsequence(a[1..], b[1..]) else IsSubsequence(a, b[1..]))
  }

  /** The first element of a non-empty subsequence occurs in the sequence. */
  lemma {:induction false} SubsequenceHead<T>(a: seq<T>, b: seq<T>)
    requires IsSubsequence(a, b) && |a| > 0
    ensures a[0] in b
    decreases |b|
  {
    if a[0] != b[0] {
      SubsequenceHead(a, b[1..]);
    }
  }

  /** A prefix one element longer. */
  lemma PrefixOneMore<T>(s: seq<T>, i: nat)
    requires i < |s|
    ensures s[..i + 1] == s[..i] + [s[i]]
  {
  }

  lemma PrefixAll<T>(s: seq<T>)
    ensures s[..|s|] == s
  {
  }

  /** Dropping the last element and dropping the first commute. */
  lemma InitTail<T>(s: seq<T>)
    requires |s| > 1
    ensures s[..|s| - 1][0] == s[0]
    ensures s[..|s| - 1][1..] == s[1..][..|s| - 2]
    ensures s[1..][|s| - 2] == s[|s| - 1]
  {
  }

  /** How often `x` occurs, counted from the head. */
  lemma MultisetHead<T>(s: seq<T>, x: T)
    requires |s| > 0
    ensures multiset(s)[x] == (if s[0] == x then 1 else 0) + multiset(s[1..])[x]
  {
    assert s == [s[0]] + s[1..];
  }

  /** `f` applied to each element, in order. */
  function Map<A, B>(f: A -> B, s: seq<A>): (r: seq<B>)
    ensures |r| == |s|
    ensures forall i {:trigger r[i]} | 0 <= i < |s| :: r[i] == f(s[i])
  {
    if |s| == 0 then [] else [f(s[0])] + Map(f, s[1..])
  }

  lemma MapAppend<A, B>(f: A -> B, a: seq<A>, b: seq<A>)
    ensures Map(f, a + b) == Map(f, a) + Map(f, b)
  {
    var r, l := Map(f, a + b), Map(f, a) + Map(f, b);
    forall i | 0 <= i < |r| ensures r[i] == l[i] {
      if i < |a| {
        assert (a + b)[i] == a[i];
      } else {
        assert (a + b)[i] == b[i - |a|];
      }
    }
  }

  /** Python's `<=` on strings: code-point lexicographic order. */
  predicate LexLe(a: string, b: string)
    decreases |a|
  {
    |a| == 0 || (|b| > 0 && (a[0] < b[0] || (a[0] == b[0] && LexLe(a[1..], b[1..]))))
  }

  lemma {:induction false} LexLeReflexive(a: string)
    ensures LexLe(a, a)
    decreases |a|
  {
    if |a| > 0 {
      LexLeReflexive(a[1..]);
    }
  }

  lemma {:induction false} LexLeTotal(a: string, b: string)
    ensures LexLe(a, b) || LexLe(b, a)
    decreases |a|
  {
    if |a| > 0 && |b| > 0 && a[0] == b[0] {
      LexLeTotal(a[1..], b[1..]);
    }
  }

  lemma {:induction false} LexLeTransitive(a: string, b: string, c: string)
    requires LexLe(a, b) && LexLe(b, c)
    ensures LexLe(a, c)
    decreases |a|
  {
    if |a| > 0 && a[0] == b[0] && b[0] == c[0] {
      LexLeTransitive(a[1..], b[1..], c[1..]);
    }
  }

  lemma {:induction false} LexLeAntisymmetric(a: string, b: string)
    requires LexLe(a, b) && LexLe(b, a)
    ensures a == b
    decreases |a|
  {
    if |a| > 0 {
      LexLeAntisymmetric(a[1..], b[1..]);
      assert a == [a[0]] + a[1..];
      assert b == [b[0]] + b[1..];
    }
  }

  /** A common prefix does not change the order: sorting full paths that
      share a directory orders them as their file names are ordered. */
  lemma {:induction false} LexLeCommonPrefix(p: string, a: string, b: string)
    ensures LexLe(p + a, p + b) <==> LexLe(a, b)
    decreases |p|
  {
    if |p| > 0 {
      assert (p + a)[1..] == p[1..] + a;
      assert (p + b)[1..] == p[1..] + b;
      LexLeCommonPrefix(p[1..], a, b);
    } else {
      assert p + a == a && p + b == b;
    }
  }

  predicate Sorted(s: seq<string>) {
    forall i, j | 0 <= i < j < |s| :: LexLe(s[i], s[j])
  }

  /** An element below everything in a sorted sequence can go in front. */
  lemma ConsSorted(y: string, t: seq<string>)
    requires Sorted(t)
    requires forall j | 0 <= j < |t| :: LexLe(y, t[j])
    ensures Sorted([y] + t)
  {
    var r := [y] + t;
    forall i, j | 0 <= i < j < |r| ensures LexLe(r[i], r[j]) {
      if i > 0 {
        assert r[i] == t[i - 1] && r[j] == t[j - 1];
      } else {
        assert r[j] == t[j - 1];
      }
    }
  }

  /** What is below the head of a sorted sequence is below all of it. */
  lemma BelowHeadBelowAll(x: string, s: seq<string>)
    requires Sorted(s) && |s| > 0 && LexLe(x, s[0])
    ensures forall j | 0 <= j < |s| :: LexLe(x, s[j])
  {
    forall j | 0 <= j < |s| ensures LexLe(x, s[j]) {
      if j > 0 {
        LexLeTransitive(x, s[0], s[j]);
      }
    }
  }

  /** The head of a sorted sequence is below everything of the rest with an
      element above it added. */
  lemma HeadBelowTail(x: string, s: seq<string>, tail: seq<string>)
    requires Sorted(s) && |s| > 0 && !LexLe(x, s[0])
    requires multiset(tail) == multiset(s[1..]) + multiset{x}
    ensures forall j | 0 <= j < |tail| :: LexLe(s[0], tail[j])
  {
    LexLeTotal(x, s[0]);
    forall j | 0 <= j < |tail| ensures LexLe(s[0], tail[j]) {
      assert tail[j] in multiset(tail);
      if tail[j] != x {
        assert tail[j] in multiset(s[1..]);
        var k :| 0 <= k < |s[1..]| && s[1..][k] == tail[j];
        assert s[k + 1] == tail[j];
      }
    }
  }

  /** Puts `x` into the sorted sequence `s` before the first element not
      below it. */
  function Insert(x: string, s: seq<string>): (r: seq<string>)
    requires Sorted(s)
    ensures Sorted(r)
    ensures multiset(r) == multiset(s) + multiset{x}
  {
    if |s| == 0 then [x]
    else if LexLe(x, s[0]) then
      BelowHeadBelowAll(x, s);
      ConsSorted(x, s);
      [x] + s
    else
      var tail := Insert(x, s[1..]);
      HeadBelowTail(x, s, tail);
      ConsSorted(s[0], tail);
      assert s == [s[0]] + s[1..];
      [s[0]] + tail
  }

  /** Python's `sorted(xs)` for strings: an ordered permutation of `xs`. */
  function Sort(xs: seq<string>): (r: seq<string>)
    ensures Sorted(r)
    ensures multiset(r) == multiset(xs)
  {
    if |xs| == 0 then []
    else
      assert xs == [xs[0]] + xs[1..];
      Insert(xs[0], Sort(xs[1..]))
  }

  /** Two sorted sequences with the same elements are equal: `Sort` gives
      the one order Python's `sorted` gives. */
  lemma {:induction false} SortedUnique(a: seq<string>, b: seq<string>)
    requires Sorted(a) && Sorted(b) && multiset(a) == multiset(b)
    ensures a == b
    decreases |a|
  {
    if |a| > 0 {
      SortedHeadsEqual(a, b);
      assert a == [a[0]] + a[1..];
      assert b == [b[0]] + b[1..];
      assert multiset(a[1..]) == multiset(b[1..]) by {
        assert multiset(a[1..]) == multiset(a) - multiset{a[0]};
        assert multiset(b[1..]) == multiset(b) - multiset{b[0]};
      }
      SortedUnique(a[1..], b[1..]);
    } else {
      assert |b| == |multiset(b)| == 0;
    }
  }

  /** Two sorted sequences with the same elements start alike: each head is
      below the other. */
  lemma SortedHeadsEqual(a: seq<string>, b: seq<string>)
    requires Sorted(a) && Sorted(b) && multiset(a) == multiset(b) && |a| > 0
    ensures |b| > 0 && a[0] == b[0]
  {
    assert |b| == |multiset(b)| == |a|;
    assert a[0] in multiset(b) && b[0] in multiset(a);
    var i :| 0 <= i < |b| && b[i] == a[0];
    var j :| 0 <= j < |a| && a[j] == b[0];
    LexLeReflexive(a[0]);
    LexLeReflexive(b[0]);
    assert LexLe(b[0], a[0]) by { if i > 0 { } }
    assert LexLe(a[0], b[0]) by { if j > 0 { } }
    LexLeAntisymmetric(a[0], b[0]);
  }
}
